=== FILE: README.md ===
# Tile level engine and editor, modelled in Dafny

This project models the logic at the centre of a small tile-based platformer
and its level editor ("SMM: Pygame").

A **level** is a jagged grid of tile identifiers. It is stored row by row, and
0 means "no tile". A **world** is a named set of levels keyed `"1"`, `"2"`, …,
each with a background colour and a layout.

Three pieces are modelled:

- **World lookup and tile classification** (`scripts/misc/world.py`).
  - `World` counts its levels and looks a level up by number.
  - `optimize_level` splits the placed tiles of a layout into *collidable*
    tiles, which have at least one open face, and *non-collidable* tiles,
    which are enclosed on all four sides.
- **The level editor** (`scripts/editor.py`).
  - An editor state holds the saved levels, their background colours, the
    open layout and its 1-based number.
  - Transitions: the brush and eraser grow the grid on demand and write a cell.
    Level navigation (`set_level`, `save_level`, `new_level`), `b_new`, and
    the dictionary halves of export and import move between states.
  - The zoom and scroll controls clamp the camera.
- **The camera** (`scripts/camera.py`).
  - Tile size follows from zoom.
  - `draw_map` projects grid cells to surface positions, culls with a margin
    and picks the tile image. It is modelled as the ordered list of blits it
    performs.
  - `debug_draw` outlines the two classification lists with the same
    projection and culling.

Modules, one concept each:

| module | file | contents |
|---|---|---|
| `Builtins` | builtins.dfy | Python list indexing (negative indices, IndexError), `str()` of an int, exceptions as `Result` |
| `SeqFilter` | seq_filter.dfy | list comprehension `[x for x in s if p(x)]` and its laws |
| `TileGrid` | tile_grid.dfy | layouts, the row-major scan of every cell, grow-and-write |
| `Classifier` | classifier.dfy | `optimize_level` as a specification and as the source's nested loop |
| `Worlds` | world.dfy | `World`, `get_level`, the level dictionary |
| `Viewport` | camera.dfy | the camera: tile size, projection, culling, `draw_map`, `debug_draw`, screen to grid |
| `LevelEditor` | editor.dfy | the editor state and its transitions |

Modelling choices:

- Python's exceptions are part of each model's result. Indexing a list goes
  through `Builtins.PyIndex`, so a negative index reads from the end of the
  list, as it does in Python. Every other index error is an `Err(IndexError)`.
  A missing dictionary key is an `Err(KeyError(key))`.
- Division by zero in the camera arithmetic is excluded by a `requires`. The
  source never divides by a zero size or zoom.
- Camera arithmetic uses exact `real`s. Python's float floor division `//`
  becomes `.Floor`.
- In the source, once `save_level`, `set_level` or `b_import` has run, the
  open layout `levelmap` is the same list object as `world[levelid - 1]`.
  Before that, at start-up and after `b_new`, the world is empty and
  `levelmap` is a separate empty list. The model has value semantics:
  `save_level` writes the layout back before every switch. This gives the same states at every
  point the source observes them.
- A Python dictionary is an ordered list of `(key, value)` pairs in
  insertion order, which is the order `json` preserves. Its keys are distinct
  (`Worlds.DistinctKeys`), as in every Python dictionary. The operations that
  read a dictionary require this, and the export dictionary is proved to meet
  it.
- Errors are results, not partial states. Every exception in the modelled
  code is uncaught and ends the editor or the game. So the model returns only
  the error and drops whatever the source had changed before raising; the
  cases are listed under "Left out".
- `update_spritesheets` reloads the tile images when `b_new` or `b_import`
  changes the tileset. The number of images it yields is a parameter of
  `LevelEditor.BNew` and `LevelEditor.Import`, and it becomes the camera's
  `sheetSize`.

Two behaviours of the code that the model keeps as written:

- The brush and eraser have no guard against a grid coordinate below 1.
  Such a coordinate makes Python index from the end of the list, or raise
  IndexError. `TileGrid.WriteCell` resolves the indices the same way, and
  reports the IndexError without the rows the source appended before raising.
  `Viewport.ScreenToGrid` shows that the case never arises while the mouse is
  over the surface and the scroll offset is non-negative, which
  `LevelEditor.MoveCamera` guarantees.
- `b_new` resets the objset name to `"smp_obj"`, while the editor starts with
  `"smb_obj"`. `LevelEditor.BNew` keeps the string as written.

## Model

| member | source | states |
|---|---|---|
| `Builtins.PyIndex` | scripts/editor.py:349 | a list index resolves exactly when it lies in `-n .. n-1`; it is the same slot modulo `n`, and a non-negative index is taken as is |
| `Builtins.Str` | scripts/misc/world.py:60 | `str(i)` is non-empty, starts with '-' exactly when `i` is negative, and its digits read back as the magnitude of `i`. `str(0)` is "0". Every other character is a decimal digit, and the first digit is '0' only for 0. |
| `Builtins.StrInjective` | scripts/misc/world.py:60 | `str()` of two integers is equal exactly when the integers are, so each level number has its own key |
| `TileGrid.CellsMembership` | scripts/misc/world.py:79-80 | the row-major scan visits exactly the in-range cells of the jagged grid, each with its own value |
| `TileGrid.CellsOrdered` | scripts/misc/world.py:79-80 | the scan visits cells in strictly increasing (row, column) order |
| `TileGrid.WriteCell` | scripts/editor.py:375-390 | for 1-based coordinates at least 1, the write always succeeds. Row count becomes max(old, gy) and the addressed row's length max(old, gx). New rows are empty and padding is 0. The cell holds the value, and every other cell reads as before. |
| `TileGrid.WriteCellIdempotent` | scripts/editor.py:365-417 | writing the same value at the same coordinates twice gives the grid of writing it once |
| `Classifier.HasExposedFace` | scripts/misc/world.py:100-121 | the source's four bounds-guarded neighbour tests report an open face exactly when not all four neighbours are present; a neighbour off the grid or past the end of a shorter row is absent |
| `Classifier.OptimizeLevel` | scripts/misc/world.py:76-131 | the nested scan returns exactly the placed cells with an open face, then exactly the enclosed placed cells, each list in scan order |
| `Classifier.ClassificationMembership` | scripts/misc/world.py:81-128 | a record is collidable iff it is a placed cell of the grid (value matching its coordinates) with an absent neighbour, and non-collidable iff it is a placed cell with all four neighbours present |
| `Classifier.PartitionExact` | scripts/misc/world.py:79-128 | every placed cell is in exactly one of the two lists; no record at an empty cell is in either |
| `Classifier.EdgeTilesCollidable` | scripts/misc/world.py:101-119 | a placed tile in the first or last row, the first column, at the end of its own row, or beside a shorter row above or below is collidable |
| `Classifier.PartitionOrdered` | scripts/misc/world.py:79-80 | both lists are in strictly increasing row-major order |
| `Classifier.PartitionCount` | scripts/misc/world.py:79-128 | the two lists together are as long as the number of non-zero cells of the grid |
| `Classifier.PlusSignExample` | scripts/misc/world.py:100-128 | the plus sign `[[0,1,0],[1,1,1],[0,1,0]]` gives four collidable records and the one non-collidable record `(1,1,1)` |
| `Worlds.NewWorld` | scripts/misc/world.py:48-54 | the world keeps the given name, tileset and objset names and level dictionary (whose keys are distinct), and the stored level count is the number of its entries |
| `Worlds.Lookup` | scripts/misc/world.py:60 | a dictionary read finds an entry carrying the key, and finds nothing exactly when no entry has the key |
| `Worlds.GetLevel` | scripts/misc/world.py:56-60 | no level (None) exactly when the id exceeds the count. Otherwise the entry under `str(id)`, and a `KeyError(str(id))` exactly when that key is missing. |
| `Worlds.NumberedLevels` | scripts/editor.py:252-263 | the export dictionary holds level `i` under key `str(i + 1)`, in level order, and no key twice |
| `Worlds.NumberKeysDistinct` | scripts/editor.py:263 | the keys `str(1)`, …, `str(n)` are pairwise different |
| `Worlds.NumberedLevelLookup` | scripts/misc/world.py:56-60 | in a world built from numbered levels, `get_level(id)` returns level `id` for every id from 1 to the count. Larger ids give None, and ids below 1 give KeyError. |
| `Viewport.TileSize` | scripts/camera.py:26-30 | with ratio (1,1), each axis of the tile size is the surface size times the zoom over 10 |
| `Viewport.TileSizeIncreasing` | scripts/camera.py:29-30 | on a surface of positive size, a larger zoom gives strictly larger tiles |
| `Viewport.NewCamera` | scripts/camera.py:9-23 | a new camera has the given surface size and sheet size, with its surface at (0,0) in the window, offset (0,0) and zoom 0.5. So a tile is a twentieth of the camera's surface. |
| `Viewport.WithTilesize` | scripts/camera.py:26-30 | recomputing the tile size changes only the tile size, to a tenth of the surface scaled by the zoom |
| `Viewport.Project` | scripts/camera.py:41-44 | a tile's surface position plus the scroll offset is its place in the level, column times tile width and row times tile height |
| `Viewport.OnScreen` | scripts/camera.py:47-53 | a tile is kept exactly when its box meets the surface. The box is widened by 5 on every side and reaches two tile heights down. |
| `Viewport.BlitAll` | scripts/camera.py:55-57 | one blit per tile in order, at its projected position, with image `tilesheet[id - 1]`. An IndexError exactly when some tile has no such image. |
| `Viewport.DrawMap` | scripts/camera.py:36-57 | `draw_map` succeeds exactly when every placed visible cell has an image. Blits are at `(x*ts.x - pos.x, y*ts.y - pos.y)`, and when all ids lie in `1 .. len(tilesheet)` the image is `id - 1`. |
| `Viewport.VisibleTilesMembership` | scripts/camera.py:37-53 | a cell is blitted exactly when it is a placed cell of the layout that passes the visibility test; an empty cell never is |
| `Viewport.VisibleTilesOrdered` | scripts/camera.py:37-38 | the blits come out in strictly increasing row-major order |
| `Viewport.CullingSound` | scripts/camera.py:46-57 | every placed tile whose own box meets the surface is blitted |
| `Viewport.OutlineAll` | scripts/camera.py:60-79 | one loop of `debug_draw`: an outline the size of a tile for each on-screen record, at its projected position, in order |
| `Viewport.DebugDraw` | scripts/camera.py:59-100 | the enclosed list's on-screen records are outlined in red, then the exposed list's in green. Each outline is a tile in size, at the record's projected position. |
| `Viewport.OutlineMembership` | scripts/camera.py:60-100 | every on-screen record of a list gets an outline in that list's colour at its position |
| `Viewport.DebugOverlayMatchesDrawMap` | scripts/camera.py:36-100 | given the lists `optimize_level` returns, the overlay draws one rectangle per blitted cell, red if enclosed and green if exposed, at the blit's position |
| `Viewport.PickDrawnTile` | scripts/editor.py:366-373 | a mouse point inside the square where cell `(x, y)` is drawn picks the 1-based cell `(x + 1, y + 1)` |
| `Viewport.ScreenToGrid` | scripts/editor.py:366-373 | the picked 1-based cell `g` is the tile band the point falls in: `g - 1 <= (mouse - surface origin + offset) / tilesize < g` per axis. With the mouse over the surface, a positive tile size and a non-negative offset, both coordinates are at least 1. |
| `Viewport.QuotientBounds` | scripts/editor.py:372-373 | a point in the `k`-th band of width `d` has quotient in `[k, k + 1)` |
| `LevelEditor.NewEditor` | scripts/editor.py:48-64 | the editor starts with no saved levels, level 1 open and empty, and the colour list `[DEFAULT_BG_COLOR]`. The names are "smb_map" and "smb_obj", in painting mode with tile 1 and the brush, on an 800×600 camera at zoom 0.5 with its surface and offset at (0,0) and tiles of 40×30. The navigation invariant holds. |
| `LevelEditor.CurrentBackground` | scripts/editor.py:195 | under the navigation invariant, the frame's background read `level_bg_color[levelid - 1]` is in range |
| `LevelEditor.NewLevel` | scripts/editor.py:341-343 | one empty level and one default colour are appended in lockstep, everything before them is kept, and nothing else changes; preserves the navigation invariant |
| `LevelEditor.SaveLevel` | scripts/editor.py:345-349 | the open layout is appended when the id is past the end, otherwise written at `levelid - 1`. Under the invariant it succeeds, keeps the invariant and leaves the other levels unchanged. |
| `LevelEditor.SetLevel` | scripts/editor.py:329-339 | ids below 1 change nothing. Otherwise the call ends with `levelid == id` and `levelmap == world[id - 1]`, and only the levels, colours, open layout and id change. Under the invariant it succeeds exactly for ids up to one past the end, and keeps the invariant. It appends nothing for an id within the saved levels. For the id one past the end, it appends exactly one empty level and default colour. |
| `LevelEditor.ArrowKeysNavigate` | scripts/editor.py:174-178 | the right and left arrow keys always succeed from a state that satisfies the invariant, and keep it |
| `LevelEditor.EditsSurviveNavigation` | scripts/editor.py:329-349 | leaving a level for any other and coming back reopens the layout as it was edited |
| `LevelEditor.BNew` | scripts/editor.py:311-327 | a new world has no levels, level 1 open and empty, and one default colour, and satisfies the invariant. The tileset and objset names are reset, the world name is kept, the tilesheet is reloaded, and nothing else changes. |
| `LevelEditor.ExportLevels` | scripts/editor.py:252-256 | level `i` of the export pairs `level_bg_color[i]` with `world[i]`; an IndexError exactly when a colour is missing |
| `LevelEditor.Export` | scripts/editor.py:238-263 | under the invariant, export succeeds after saving the open level, and stores level `i` under key `str(i + 1)` with its colour and layout |
| `LevelEditor.Import` | scripts/editor.py:290-305 | levels and colours are rebuilt in dictionary order, then level 1 is opened. The world, tileset and objset names are taken from the file, the tilesheet is reloaded, and nothing else changes. An IndexError exactly when the dictionary is empty. |
| `LevelEditor.ExportImportRoundTrip` | scripts/editor.py:238-305 | importing an export restores every saved level, its colour, the tileset and objset names, and reopens level 1 |
| `LevelEditor.ExportImportRestoresColors` | scripts/editor.py:252-305 | with one colour per level, the round trip restores the colour list whole |
| `LevelEditor.ExportedWorldLookup` | scripts/editor.py:252-263 | a `World` built from an export finds saved level `id` with its colour under number `id`, and nothing past the count |
| `LevelEditor.ZoomCamera` | scripts/editor.py:219-227 | outside painting mode, zooming changes nothing. Otherwise the zoom moves by 0.1 per notch, is clamped to `[0.1, 2]`, and the tile size is recomputed from it. |
| `LevelEditor.MoveCamera` | scripts/editor.py:204-217 | each held key moves the offset by the zoom-scaled step; then an axis that went negative is set to exactly 0 and any other axis is kept |
| `LevelEditor.ScrollStopsAtOrigin` | scripts/editor.py:207-217 | scrolling up and left at the origin stays at the origin |
| `LevelEditor.CameraControlsKeepScrolled` | scripts/editor.py:204-227 | zooming and scrolling keep the tile size positive and the scroll offset non-negative |
| `LevelEditor.PaintAt` | scripts/editor.py:366-390 | the cell under the mouse is grown-and-written, and nothing but the open layout changes |
| `LevelEditor.BrushTool` | scripts/editor.py:365-390 | with the mouse over the surface, the cell under it holds the selected tile afterwards, with the grid grown as needed |
| `LevelEditor.EraseTool` | scripts/editor.py:392-417 | with the mouse over the surface, the cell under it holds 0 afterwards, with the grid still grown as needed |
| `LevelEditor.ToolsIdempotent` | scripts/editor.py:365-417 | using the brush, or the eraser, twice at one point is using it once |
| `LevelEditor.PaintThenErase` | scripts/editor.py:365-417 | painting and then erasing at one point leaves the cell empty, and the grid never shrinks |
| `LevelEditor.HandleTools` | scripts/editor.py:352-363 | the tool runs exactly when the mouse is over the surface, the editor is in painting mode and the left button is held. It then paints the picked cell with the selected tile for the brush, or with 0 for the eraser, and otherwise nothing changes. Only the open layout changes. With a scrolled camera it always succeeds, and the picked cell is grown into and written. |

## Left out

- `SpriteSheetParser` and `WorldParser`: image slicing and the reading and
  parsing of world files are I/O. The camera keeps only the number of tile
  images (`sheetSize`), and a world file is the `WorldData` value it would
  parse to.
- The editor's file dialogs, `json.dumps`/`json.loads` and the export's file
  name. `Export` takes that name as a parameter, and an import that fails to
  parse returns before any state changes.
- Partial effects before an uncaught exception. The model returns the error
  alone:
  - `Import` with an empty dictionary: the source has already replaced the
    levels and names, and reloaded the tilesheet, before `world[0]` raises.
  - `WriteCell` with a coordinate below 1: the source has already appended
    the missing rows (for `levelmap = []`, `gx = 0`, `gy = 2` it leaves
    `[[], []]`) before the index raises.
  - `Export` with a missing colour: `save_level` has already run before
    `level_bg_color[i]` raises.
  - `DrawMap` with a tile that has no image: the blits of the tiles before it
    have already been made.
  - `SetLevel` with an id more than one past the saved levels: `save_level`
    and `new_level` have already stored the open layout and appended one
    empty level and one default colour before `world[id - 1]` raises. From
    the navigation invariant the arrow keys never ask for such an id.
- `get_level_layout` and `get_level_bg`: these are one-line reads.
  `update_spritesheets` is image loading; only the number of images it yields
  is kept.
- The tileset picker (`draw_tileset`, `scroll_tileset`, `select_tileset`),
  `show_cursor`, the position and level labels, and the UI widgets. These are
  pygame drawing and hit-testing.
- The bucket tool: it has a button image but no behaviour in the source.
- Mode and tool switching by key (Tab, E, B) is a single assignment. It is
  represented only by the `mode` and `tool` fields.
- Player physics, the game loop and its unclamped `cam_move`, and the launcher.
- Python float rounding: all camera arithmetic is exact.
- Aliasing between `levelmap` and `world[levelid - 1]`: value semantics
  instead, as described above.
- A `ZeroDivisionError` from a zero surface size or tile size is a
  precondition, not an error result. The editor's sizes are fixed and
  positive.

=== FILE: builtins.dfy ===
/** The few pieces of Python's runtime behaviour the level engine leans on:
    list indexing (negative indices count from the end, anything else raises
    IndexError), `str()` of an integer, and the exceptions that end an
    operation part-way. */
module Builtins {

  /** The exceptions the modelled code can raise. */
  datatype PyError = IndexError | KeyError(key: string)

  datatype Option<+T> = None | Some(value: T)

  /** Either the operation's value or the exception it raised. */
  datatype Result<+T> = Ok(value: T) | Err(error: PyError) {
    predicate IsFailure() {
      Err?
    }

    function PropagateFailure<U>(): Result<U>
      requires Err?
    {
      Err(error)
    }

    function Extract(): T
      requires Ok?
    {
      value
    }
  }

  /** The slot that `xs[i]` reads for a list of length `n`: a non-negative
      index is taken as is, a negative one counts back from the end, and
      anything outside `-n .. n-1` is an IndexError (None). */
  function PyIndex(i: int, n: nat): (r: Option<nat>)
    ensures r.Some? <==> -(n as int) <= i < n
    ensures r.Some? ==> r.value < n && r.value as int % n == i % n
    ensures 0 <= i < n ==> r == Some(i)
  {
    if 0 <= i < n then Some(i)
    else if -(n as int) <= i < 0 then Some(n + i)
    else None
  }

  // ---------------------------------------------------------------------
  // str() of an int, in decimal, with a leading '-' for negatives

  function Digit(d: int): (c: char)
    requires 0 <= d < 10
    ensures '0' <= c <= '9'
  {
    ('0' as int + d) as char
  }

  function DigitValue(c: char): int {
    c as int - '0' as int
  }

  /** The decimal digits of `n`, most significant first, with no leading
      zero except in "0" itself. */
  function NatToString(n: nat): (s: string)
    ensures |s| >= 1
    ensures forall k :: 0 <= k < |s| ==> '0' <= s[k] <= '9'
    ensures s[0] == '0' <==> n == 0
    ensures n == 0 ==> s == "0"
    decreases n
  {
    if n < 10 then [Digit(n)] else NatToString(n / 10) + [Digit(n % 10)]
  }

  /** Python's `str(i)` for an integer `i`: the decimal digits of `|i|`, read
      back as `|i|`, after a '-' exactly when `i` is negative. */
  function Str(i: int): (s: string)
    ensures |s| >= 1
    ensures s[0] == '-' <==> i < 0
    ensures i < 0 ==> |s| >= 2
    ensures forall k :: (if i < 0 then 1 else 0) <= k < |s| ==> '0' <= s[k] <= '9'
    ensures s[if i < 0 then 1 else 0] == '0' <==> i == 0
    ensures i == 0 ==> s == "0"
    ensures i >= 0 ==> ParseDigits(s) == i
    ensures i < 0 ==> ParseDigits(s[1..]) == -i
  {
    ParseNatToString(if i < 0 then -i else i);
    if i < 0 then "-" + NatToString(-i) else NatToString(i)
  }

  /** Reads a string of decimal digits back into the number it spells. */
  function ParseDigits(s: string): int
    decreases |s|
  {
    if s == [] then 0 else ParseDigits(s[..|s| - 1]) * 10 + DigitValue(s[|s| - 1])
  }

  lemma {:induction false} ParseNatToString(n: nat)
    ensures ParseDigits(NatToString(n)) == n
    decreases n
  {
    if n >= 10 {
      var s := NatToString(n / 10);
      ParseNatToString(n / 10);
      assert (s + [Digit(n % 10)])[..|s|] == s;
    }
  }

  /** Distinct integers have distinct decimal spellings, so the keys
      `str(1)`, `str(2)`, … of a level dictionary never collide. */
  lemma StrInjective(a: int, b: int)
    ensures Str(a) == Str(b) <==> a == b
  {
    if Str(a) == Str(b) {
      // the sign character agrees, and each spelling reads back as its number
      assert a < 0 <==> b < 0;
    }
  }
}

=== FILE: camera.dfy ===
/** The camera of `scripts/camera.py`: a zoomable, scrollable view of a
    layout drawn onto a fixed-size surface. Arithmetic is over exact reals;
    the source computes in floating point. */
module Viewport {
  import opened Builtins
  import opened SeqFilter
  import opened TileGrid
  import opened Worlds
  import opened Classifier

  datatype Vec = Vec(x: real, y: real)

  /** Per-axis scale of the framing; the source fixes it at `(1, 1)`. */
  const RATIO: Vec := Vec(1.0, 1.0)
  /** Zoom of a freshly built camera. */
  const INITIAL_ZOOM: real := 0.5
  /** Slack, in pixels, around the surface before a tile is culled. */
  const CULL_MARGIN: real := 5.0

  const DEBUG_ENCLOSED: Color := Color(255, 0, 0)
  const DEBUG_EXPOSED: Color := Color(0, 255, 0)

  /** `position` is the scroll offset in world pixels, `cameraPosition` the
      surface's top-left corner in the window, `size` the surface size,
      `tilesize` the pixel size of one tile and `sheetSize` the number of
      images in the tilesheet. */
  datatype Camera = Camera(position: Vec, cameraPosition: Vec, size: Vec, zoom: real,
                           tilesize: Vec, sheetSize: nat)

  /** `calculate_tilesize`: ten tiles span the surface at zoom 1, so a tile is
      a tenth of the surface scaled by the zoom. */
  function TileSize(size: Vec, zoom: real): (ts: Vec)
    requires zoom != 0.0
    ensures ts.x == size.x * zoom / 10.0 && ts.y == size.y * zoom / 10.0
  {
    var d := RATIO.x * 10.0 / zoom;
    assert d * zoom == 10.0;
    Vec(size.x / (RATIO.x * 10.0 / zoom), size.y / (RATIO.y * 10.0 / zoom))
  }

  /** A larger zoom gives strictly larger tiles on a surface of positive size. */
  lemma TileSizeIncreasing(size: Vec, z1: real, z2: real)
    requires size.x > 0.0 && size.y > 0.0 && 0.0 < z1 < z2
    ensures TileSize(size, z1).x < TileSize(size, z2).x
    ensures TileSize(size, z1).y < TileSize(size, z2).y
  {
    var a, b := TileSize(size, z1), TileSize(size, z2);
    ScaleIncreasing(size.x, z1, z2, a.x, b.x);
    ScaleIncreasing(size.y, z1, z2, a.y, b.y);
  }

  /** One axis of the tile size, `t = s * z / 10`, grows strictly with the zoom. */
  lemma ScaleIncreasing(s: real, z1: real, z2: real, t1: real, t2: real)
    requires s > 0.0 && z1 < z2
    requires t1 == s * z1 / 10.0 && t2 == s * z2 / 10.0
    ensures t1 < t2
  {
    var dz := z2 - z1;
    assert s * z2 == s * z1 + s * dz;
    assert s * dz > 0.0;
  }

  /** `Camera.__init__`: no scroll, surface at the window origin, zoom 0.5. */
  function NewCamera(size: Vec, sheetSize: nat): (cam: Camera)
    ensures cam.position == Vec(0.0, 0.0) && cam.zoom == INITIAL_ZOOM
    ensures cam.cameraPosition == Vec(0.0, 0.0) && cam.size == size && cam.sheetSize == sheetSize
    ensures cam.tilesize == Vec(cam.size.x / 20.0, cam.size.y / 20.0)
  {
    Camera(Vec(0.0, 0.0), Vec(0.0, 0.0), size, INITIAL_ZOOM, TileSize(size, INITIAL_ZOOM), sheetSize)
  }

  /** `calculate_tilesize` on a camera: only the tile size changes, to a
      tenth of the surface scaled by the zoom. */
  function WithTilesize(cam: Camera): (c: Camera)
    requires cam.zoom != 0.0
    ensures c == cam.(tilesize := c.tilesize)
    ensures c.tilesize == Vec(cam.size.x * cam.zoom / 10.0, cam.size.y * cam.zoom / 10.0)
  {
    cam.(tilesize := TileSize(cam.size, cam.zoom))
  }

  /** Surface position of the tile at column `x`, row `y`: its place in the
      level, `x` and `y` tile sizes from the origin, seen from the scroll
      offset. */
  function Project(cam: Camera, x: int, y: int): (p: Vec)
    ensures p.x + cam.position.x == x as real * cam.tilesize.x
    ensures p.y + cam.position.y == y as real * cam.tilesize.y
  {
    Vec(x as real * cam.tilesize.x - cam.position.x, y as real * cam.tilesize.y - cam.position.y)
  }

  // ---------------------------------------------------------------------
  // Culling

  /** Closed intervals `[lo1, hi1]` and `[lo2, hi2]` share a point. */
  predicate IntervalsMeet(lo1: real, hi1: real, lo2: real, hi2: real) {
    lo1 <= hi2 && lo2 <= hi1
  }

  /** The axis-aligned boxes `[lo1, hi1]` and `[lo2, hi2]` share a point. */
  predicate BoxesMeet(lo1: Vec, hi1: Vec, lo2: Vec, hi2: Vec) {
    IntervalsMeet(lo1.x, hi1.x, lo2.x, hi2.x) && IntervalsMeet(lo1.y, hi1.y, lo2.y, hi2.y)
  }

  /** The visibility test of `draw_map` and `debug_draw`. A tile at `pos` is
      kept exactly when its box, widened by the margin on every side and
      reaching two tile heights down, meets the surface; so every tile whose
      own box meets the surface is kept. */
  function OnScreen(cam: Camera, pos: Vec): (visible: bool)
    ensures visible <==> BoxesMeet(
      Vec(pos.x - CULL_MARGIN, pos.y - CULL_MARGIN),
      Vec(pos.x + cam.tilesize.x + CULL_MARGIN, pos.y + 2.0 * cam.tilesize.y + CULL_MARGIN),
      Vec(0.0, 0.0), cam.size)
    ensures cam.tilesize.y >= 0.0 &&
      BoxesMeet(pos, Vec(pos.x + cam.tilesize.x, pos.y + cam.tilesize.y), Vec(0.0, 0.0), cam.size)
      ==> visible
  {
    !(pos.x + cam.tilesize.x + 5.0 < 0.0 || pos.x - 5.0 > cam.size.x
      || pos.y + cam.tilesize.y * 2.0 + 5.0 < 0.0 || pos.y - 5.0 > cam.size.y)
  }

  function IsOnScreenTile(cam: Camera): Tile -> bool {
    (t: Tile) => OnScreen(cam, Project(cam, t.x, t.y))
  }

  function IsDrawn(cam: Camera): Tile -> bool {
    (t: Tile) => t.id != 0 && OnScreen(cam, Project(cam, t.x, t.y))
  }

  /** The cells `draw_map` blits, in its loop order. */
  function VisibleTiles(cam: Camera, g: Layout): seq<Tile> {
    Filter(Cells(g), IsDrawn(cam))
  }

  // ---------------------------------------------------------------------
  // draw_map

  /** One `surface.blit(scale(tilesheet[sheetIndex], tilesize), pos)`. */
  datatype DrawCmd = Blit(sheetIndex: nat, pos: Vec)

  /** `tilesheet[id - 1]` resolves (negative ids index from the end). */
  predicate HasImage(cam: Camera, t: Tile) {
    PyIndex(t.id - 1, cam.sheetSize).Some?
  }

  /** The blit for each tile in order, or the IndexError of the first tile
      whose image does not exist. */
  function BlitAll(cam: Camera, tiles: seq<Tile>): (r: Result<seq<DrawCmd>>)
    ensures r.Ok? <==> forall i :: 0 <= i < |tiles| ==> HasImage(cam, tiles[i])
    ensures r.Err? ==> r.error == IndexError
    ensures r.Ok? ==> |r.value| == |tiles| && forall i :: 0 <= i < |tiles| ==>
      r.value[i] == Blit(PyIndex(tiles[i].id - 1, cam.sheetSize).value, Project(cam, tiles[i].x, tiles[i].y))
    decreases |tiles|
  {
    if tiles == [] then Ok([])
    else
      var t := tiles[|tiles| - 1];
      match BlitAll(cam, tiles[..|tiles| - 1])
      case Err(e) => Err(e)
      case Ok(cmds) =>
        match PyIndex(t.id - 1, cam.sheetSize)
        case None => Err(IndexError)
        case Some(k) => Ok(cmds + [Blit(k, Project(cam, t.x, t.y))])
  }

  /** `draw_map`: one blit per placed, visible cell, in row-major order, using
      image `id - 1` of the tilesheet. When every identifier of the layout
      lies in `0 .. sheetSize` the call succeeds and the image is `id - 1`. */
  function DrawMap(cam: Camera, g: Layout): (r: Result<seq<DrawCmd>>)
    ensures r.Ok? <==> forall t :: t in VisibleTiles(cam, g) ==> HasImage(cam, t)
    ensures r.Ok? ==> |r.value| == |VisibleTiles(cam, g)| && forall i :: 0 <= i < |r.value| ==>
      r.value[i].pos == Project(cam, VisibleTiles(cam, g)[i].x, VisibleTiles(cam, g)[i].y)
    ensures (forall t :: t in VisibleTiles(cam, g) ==> 1 <= t.id <= cam.sheetSize) ==>
      r.Ok? && forall i :: 0 <= i < |r.value| ==> r.value[i].sheetIndex == VisibleTiles(cam, g)[i].id - 1
  {
    BlitAll(cam, VisibleTiles(cam, g))
  }

  /** A cell is blitted exactly when it is a placed cell of the layout whose
      projected position passes the visibility test; empty cells never are. */
  lemma VisibleTilesMembership(cam: Camera, g: Layout, t: Tile)
    ensures t in VisibleTiles(cam, g) <==>
      IsCellOf(g, t) && t.id != 0 && OnScreen(cam, Project(cam, t.x, t.y))
  {
    CellsMembership(g, t);
    FilterMembership(Cells(g), IsDrawn(cam), t);
  }

  /** The blits come out in strictly increasing row-major order. */
  lemma VisibleTilesOrdered(cam: Camera, g: Layout)
    ensures Ordered(VisibleTiles(cam, g), RowMajorBefore)
  {
    CellsOrdered(g);
    FilterOrdered(Cells(g), IsDrawn(cam), RowMajorBefore);
  }

  /** Culling never hides a placed tile whose box meets the surface. */
  lemma CullingSound(cam: Camera, g: Layout, x: nat, y: nat)
    requires y < |g| && x < |g[y]| && g[y][x] != 0
    requires cam.tilesize.x >= 0.0 && cam.tilesize.y >= 0.0
    requires var p := Project(cam, x, y);
      BoxesMeet(p, Vec(p.x + cam.tilesize.x, p.y + cam.tilesize.y), Vec(0.0, 0.0), cam.size)
    ensures Tile(g[y][x], x, y) in VisibleTiles(cam, g)
  {
    VisibleTilesMembership(cam, g, Tile(g[y][x], x, y));
  }

  // ---------------------------------------------------------------------
  // debug_draw

  /** `pygame.draw.rect(surface, color, Rect(pos, tilesize))`. */
  datatype DebugRect = DebugRect(color: Color, pos: Vec, size: Vec)

  /** One loop of `debug_draw`: an outline for each on-screen record, in order. */
  function OutlineAll(cam: Camera, tiles: seq<Tile>, color: Color): (r: seq<DebugRect>)
    ensures |r| == |Filter(tiles, IsOnScreenTile(cam))|
    ensures forall i :: 0 <= i < |r| ==> r[i] == DebugRect(color,
      Project(cam, Filter(tiles, IsOnScreenTile(cam))[i].x, Filter(tiles, IsOnScreenTile(cam))[i].y),
      cam.tilesize)
    decreases |tiles|
  {
    if tiles == [] then []
    else
      var t := tiles[|tiles| - 1];
      var pos := Project(cam, t.x, t.y);
      OutlineAll(cam, tiles[..|tiles| - 1], color)
        + (if OnScreen(cam, pos) then [DebugRect(color, pos, cam.tilesize)] else [])
  }

  /** `debug_draw(nocollide, collide)`: red outlines for the enclosed records,
      then green outlines for the exposed ones. */
  function DebugDraw(cam: Camera, nocollide: seq<Tile>, collide: seq<Tile>): (r: seq<DebugRect>)
    ensures |r| == |Filter(nocollide, IsOnScreenTile(cam))| + |Filter(collide, IsOnScreenTile(cam))|
    ensures var f := Filter(nocollide, IsOnScreenTile(cam)) + Filter(collide, IsOnScreenTile(cam));
      forall i :: 0 <= i < |r| ==> r[i].pos == Project(cam, f[i].x, f[i].y)
    ensures forall i :: 0 <= i < |r| ==>
      && r[i].size == cam.tilesize
      && r[i].color == (if i < |Filter(nocollide, IsOnScreenTile(cam))| then DEBUG_ENCLOSED else DEBUG_EXPOSED)
  {
    OutlineAll(cam, nocollide, DEBUG_ENCLOSED) + OutlineAll(cam, collide, DEBUG_EXPOSED)
  }

  /** An on-screen record of either list gets its outline in that list's colour. */
  lemma OutlineMembership(cam: Camera, tiles: seq<Tile>, color: Color, t: Tile)
    requires t in tiles && OnScreen(cam, Project(cam, t.x, t.y))
    ensures DebugRect(color, Project(cam, t.x, t.y), cam.tilesize) in OutlineAll(cam, tiles, color)
  {
    FilterMembership(tiles, IsOnScreenTile(cam), t);
    var f := Filter(tiles, IsOnScreenTile(cam));
    var i :| 0 <= i < |f| && f[i] == t;
    assert OutlineAll(cam, tiles, color)[i] == DebugRect(color, Project(cam, t.x, t.y), cam.tilesize);
  }

  /** Fed the two lists `optimize_level` returns, the debug overlay outlines
      exactly the cells `draw_map` blits: one rectangle per blitted cell, red
      for an enclosed cell and green for an exposed one, at the blit's position. */
  lemma DebugOverlayMatchesDrawMap(cam: Camera, g: Layout)
    ensures |DebugDraw(cam, NonCollidableTiles(g), CollidableTiles(g))| == |VisibleTiles(cam, g)|
    ensures forall t :: t in VisibleTiles(cam, g) ==>
      DebugRect(if Enclosed(g, t.x, t.y) then DEBUG_ENCLOSED else DEBUG_EXPOSED,
                Project(cam, t.x, t.y), cam.tilesize)
        in DebugDraw(cam, NonCollidableTiles(g), CollidableTiles(g))
  {
    var red := (t: Tile) => IsNonCollidable(g)(t) && IsOnScreenTile(cam)(t);
    var green := (t: Tile) => IsCollidable(g)(t) && IsOnScreenTile(cam)(t);
    FilterFilter(Cells(g), IsNonCollidable(g), IsOnScreenTile(cam), red);
    FilterFilter(Cells(g), IsCollidable(g), IsOnScreenTile(cam), green);
    FilterSplitCount(Cells(g), IsDrawn(cam), green, red, (t: Tile) => !Enclosed(g, t.x, t.y));
    forall t | t in VisibleTiles(cam, g)
      ensures DebugRect(if Enclosed(g, t.x, t.y) then DEBUG_ENCLOSED else DEBUG_EXPOSED,
                        Project(cam, t.x, t.y), cam.tilesize)
                in DebugDraw(cam, NonCollidableTiles(g), CollidableTiles(g))
    {
      VisibleTilesMembership(cam, g, t);
      ClassificationMembership(g, t);
      if Enclosed(g, t.x, t.y) {
        OutlineMembership(cam, NonCollidableTiles(g), DEBUG_ENCLOSED, t);
      } else {
        OutlineMembership(cam, CollidableTiles(g), DEBUG_EXPOSED, t);
      }
    }
  }

  // ---------------------------------------------------------------------
  // Screen to grid

  /** The 1-based grid cell under a window point, as `brush_tool` and
      `erase_tool` compute it: window to surface, plus scroll, floor-divided
      by the tile size, plus one. */
  function ScreenToGrid(cam: Camera, mouse: Vec): (r: (int, int))
    requires cam.tilesize.x != 0.0 && cam.tilesize.y != 0.0
    ensures (r.0 - 1) as real <= (mouse.x - cam.cameraPosition.x + cam.position.x) / cam.tilesize.x < r.0 as real
    ensures (r.1 - 1) as real <= (mouse.y - cam.cameraPosition.y + cam.position.y) / cam.tilesize.y < r.1 as real
    ensures (cam.tilesize.x > 0.0 && cam.tilesize.y > 0.0 && cam.position.x >= 0.0 && cam.position.y >= 0.0
             && InView(cam, mouse)) ==> r.0 >= 1 && r.1 >= 1
  {
    var nx := mouse.x - cam.cameraPosition.x + cam.position.x;
    var ny := mouse.y - cam.cameraPosition.y + cam.position.y;
    QuotientSign(nx, cam.tilesize.x);
    QuotientSign(ny, cam.tilesize.y);
    ((nx / cam.tilesize.x).Floor + 1, (ny / cam.tilesize.y).Floor + 1)
  }

  /** A product with a positive factor has the sign of the other factor. */
  lemma SignOfProduct(e: real, d: real)
    requires d > 0.0
    ensures e * d >= 0.0 ==> e >= 0.0
    ensures e * d > 0.0 ==> e > 0.0
  {
    if e < 0.0 {
      assert e * d < 0.0;
    }
  }

  /** Dividing by a positive number keeps a number non-negative. */
  lemma QuotientSign(n: real, d: real)
    ensures d > 0.0 && n >= 0.0 ==> n / d >= 0.0
  {
    if d > 0.0 {
      assert (n / d) * d == n;
      SignOfProduct(n / d, d);
    }
  }

  /** `n` lies in the `k`-th band of width `d` exactly when `n / d` lies in `[k, k + 1)`. */
  lemma QuotientBounds(n: real, d: real, k: real)
    requires d > 0.0 && k * d <= n < (k + 1.0) * d
    ensures k <= n / d < k + 1.0
  {
    var q := n / d;
    assert q * d == n;
    assert (q - k) * d == n - k * d;
    assert (k + 1.0 - q) * d == (k + 1.0) * d - n;
    SignOfProduct(q - k, d);
    SignOfProduct(k + 1.0 - q, d);
  }

  lemma FloorOfQuotient(n: real, d: real, k: int)
    requires d > 0.0 && k as real * d <= n < (k + 1) as real * d
    ensures (n / d).Floor == k
  {
    QuotientBounds(n, d, k as real);
  }

  /** A window point inside the square where `draw_map` put the tile of
      column `x`, row `y` picks that cell: 1-based `(x + 1, y + 1)`. */
  lemma PickDrawnTile(cam: Camera, x: int, y: int, mouse: Vec)
    requires cam.tilesize.x > 0.0 && cam.tilesize.y > 0.0
    requires var p := Project(cam, x, y);
      && p.x + cam.cameraPosition.x <= mouse.x < p.x + cam.cameraPosition.x + cam.tilesize.x
      && p.y + cam.cameraPosition.y <= mouse.y < p.y + cam.cameraPosition.y + cam.tilesize.y
    ensures ScreenToGrid(cam, mouse) == (x + 1, y + 1)
  {
    FloorOfQuotient(mouse.x - cam.cameraPosition.x + cam.position.x, cam.tilesize.x, x);
    FloorOfQuotient(mouse.y - cam.cameraPosition.y + cam.position.y, cam.tilesize.y, y);
  }

  /** `camera.rect.collidepoint(mouse)`. */
  predicate InView(cam: Camera, mouse: Vec) {
    cam.cameraPosition.x <= mouse.x < cam.cameraPosition.x + cam.size.x
    && cam.cameraPosition.y <= mouse.y < cam.cameraPosition.y + cam.size.y
  }
}

=== FILE: classifier.dfy ===
/** `World.optimize_level`: split the placed tiles of a layout into those a
    moving body can touch (at least one open face) and those fully enclosed
    by other tiles. */
module Classifier {
  import opened SeqFilter
  import opened TileGrid

  /** A neighbour counts as present only when it lies inside the grid, inside
      its own (possibly shorter) row, and is not 0. */
  predicate Solid(g: Layout, x: int, y: int) {
    Get(g, x, y) != 0
  }

  /** Reference rule: all four orthogonal neighbours are present. */
  predicate Enclosed(g: Layout, x: int, y: int) {
    Solid(g, x, y - 1) && Solid(g, x, y + 1) && Solid(g, x - 1, y) && Solid(g, x + 1, y)
  }

  /** The neighbour test exactly as the scan performs it, with its own bounds
      guards on each side; it reports an exposed face precisely when the cell
      is not enclosed. */
  function HasExposedFace(g: Layout, x: nat, y: nat): (exposed: bool)
    requires y < |g| && x < |g[y]|
    ensures exposed <==> !Enclosed(g, x, y)
  {
    var top := if y - 1 >= 0 && |g[y - 1]| > x then g[y - 1][x] != 0 else false;
    var down := if y + 1 < |g| && |g[y + 1]| > x then g[y + 1][x] != 0 else false;
    var left := if x - 1 >= 0 then g[y][x - 1] != 0 else false;
    var right := if x + 1 < |g[y]| then g[y][x + 1] != 0 else false;
    // `False in [top, left, right, down]`
    !(top && left && right && down)
  }

  function IsPlaced(): Tile -> bool {
    (t: Tile) => t.id != 0
  }

  function IsCollidable(g: Layout): Tile -> bool {
    (t: Tile) => t.id != 0 && !Enclosed(g, t.x, t.y)
  }

  function IsNonCollidable(g: Layout): Tile -> bool {
    (t: Tile) => t.id != 0 && Enclosed(g, t.x, t.y)
  }

  /** The first list `optimize_level` returns, as a filter of the scan. */
  function CollidableTiles(g: Layout): seq<Tile> {
    Filter(Cells(g), IsCollidable(g))
  }

  /** The second list `optimize_level` returns, as a filter of the scan. */
  function NonCollidableTiles(g: Layout): seq<Tile> {
    Filter(Cells(g), IsNonCollidable(g))
  }

  /** The scan of `optimize_level`: rows top to bottom, cells left to right,
      skipping 0 and appending each other cell to one of the two lists. */
  method OptimizeLevel(g: Layout) returns (collidable: seq<Tile>, nonCollidable: seq<Tile>)
    ensures collidable == CollidableTiles(g)
    ensures nonCollidable == NonCollidableTiles(g)
  {
    collidable, nonCollidable := [], [];
    var y := 0;
    while y < |g|
      invariant 0 <= y <= |g|
      invariant collidable == Filter(RowsPrefix(g, y), IsCollidable(g))
      invariant nonCollidable == Filter(RowsPrefix(g, y), IsNonCollidable(g))
    {
      var row := g[y];
      var x := 0;
      assert RowsPrefix(g, y) + RowTiles(g, y)[..x] == RowsPrefix(g, y);
      while x < |row|
        invariant 0 <= x <= |row|
        invariant collidable == Filter(RowsPrefix(g, y) + RowTiles(g, y)[..x], IsCollidable(g))
        invariant nonCollidable == Filter(RowsPrefix(g, y) + RowTiles(g, y)[..x], IsNonCollidable(g))
      {
        ghost var scanned := RowsPrefix(g, y) + RowTiles(g, y)[..x];
        var t := Tile(row[x], x, y);
        assert RowsPrefix(g, y) + RowTiles(g, y)[..x + 1] == scanned + [t];
        FilterSnoc(scanned, t, IsCollidable(g));
        FilterSnoc(scanned, t, IsNonCollidable(g));
        if row[x] != 0 {
          if HasExposedFace(g, x, y) {
            collidable := collidable + [t];
          } else {
            nonCollidable := nonCollidable + [t];
          }
        }
        x := x + 1;
      }
      assert RowTiles(g, y)[..|row|] == RowTiles(g, y);
      y := y + 1;
    }
  }

  // ---------------------------------------------------------------------
  // Properties of the partition

  /** A record is collidable exactly when it is a placed cell of the grid with
      an absent neighbour, and non-collidable exactly when it is a placed
      cell with all four neighbours present. Records carry the grid's own
      value at their coordinates. */
  lemma ClassificationMembership(g: Layout, t: Tile)
    ensures t in CollidableTiles(g) <==> IsCellOf(g, t) && t.id != 0 && !Enclosed(g, t.x, t.y)
    ensures t in NonCollidableTiles(g) <==> IsCellOf(g, t) && t.id != 0 && Enclosed(g, t.x, t.y)
  {
    CellsMembership(g, t);
    FilterMembership(Cells(g), IsCollidable(g), t);
    FilterMembership(Cells(g), IsNonCollidable(g), t);
  }

  /** Every placed cell lands in exactly one list; an empty cell in neither. */
  lemma PartitionExact(g: Layout, x: nat, y: nat)
    requires y < |g| && x < |g[y]|
    ensures g[y][x] != 0 ==>
      (Tile(g[y][x], x, y) in CollidableTiles(g) <==> Tile(g[y][x], x, y) !in NonCollidableTiles(g))
    ensures g[y][x] == 0 ==>
      forall id :: Tile(id, x, y) !in CollidableTiles(g) && Tile(id, x, y) !in NonCollidableTiles(g)
  {
    ClassificationMembership(g, Tile(g[y][x], x, y));
    forall id
      ensures g[y][x] == 0 ==> Tile(id, x, y) !in CollidableTiles(g) && Tile(id, x, y) !in NonCollidableTiles(g)
    {
      ClassificationMembership(g, Tile(id, x, y));
    }
  }

  /** A placed tile on the edge of the grid, at the end of its own row, or
      next to a shorter row above or below, has an exposed face. */
  lemma EdgeTilesCollidable(g: Layout, x: nat, y: nat)
    requires y < |g| && x < |g[y]| && g[y][x] != 0
    requires x == 0 || y == 0 || y == |g| - 1 || x == |g[y]| - 1
             || (y > 0 && x >= |g[y - 1]|) || (y + 1 < |g| && x >= |g[y + 1]|)
    ensures Tile(g[y][x], x, y) in CollidableTiles(g)
  {
    ClassificationMembership(g, Tile(g[y][x], x, y));
  }

  /** Both lists come out in strictly increasing row-major order. */
  lemma PartitionOrdered(g: Layout)
    ensures Ordered(CollidableTiles(g), RowMajorBefore)
    ensures Ordered(NonCollidableTiles(g), RowMajorBefore)
  {
    CellsOrdered(g);
    FilterOrdered(Cells(g), IsCollidable(g), RowMajorBefore);
    FilterOrdered(Cells(g), IsNonCollidable(g), RowMajorBefore);
  }

  // ---------------------------------------------------------------------
  // Counting

  /** The number of non-zero entries of a row. */
  function CountNonZero(row: seq<int>): nat
    decreases |row|
  {
    if row == [] then 0
    else CountNonZero(row[..|row| - 1]) + (if row[|row| - 1] != 0 then 1 else 0)
  }

  /** The number of placed tiles in rows `0 .. m-1`. */
  function CountPlaced(g: Layout, m: nat): nat
    requires m <= |g|
    decreases m
  {
    if m == 0 then 0 else CountPlaced(g, m - 1) + CountNonZero(g[m - 1])
  }

  lemma {:induction false} RowPlacedCount(g: Layout, y: nat, n: nat)
    requires y < |g| && n <= |g[y]|
    ensures |Filter(RowTiles(g, y)[..n], IsPlaced())| == CountNonZero(g[y][..n])
    decreases n
  {
    if n > 0 {
      RowPlacedCount(g, y, n - 1);
      assert RowTiles(g, y)[..n] == RowTiles(g, y)[..n - 1] + [RowTiles(g, y)[n - 1]];
      FilterSnoc(RowTiles(g, y)[..n - 1], RowTiles(g, y)[n - 1], IsPlaced());
      assert g[y][..n][..n - 1] == g[y][..n - 1];
    }
  }

  lemma {:induction false} PlacedCount(g: Layout, m: nat)
    requires m <= |g|
    ensures |Filter(RowsPrefix(g, m), IsPlaced())| == CountPlaced(g, m)
    decreases m
  {
    if m > 0 {
      PlacedCount(g, m - 1);
      FilterAppend(RowsPrefix(g, m - 1), RowTiles(g, m - 1), IsPlaced());
      RowPlacedCount(g, m - 1, |g[m - 1]|);
      assert RowTiles(g, m - 1)[..|g[m - 1]|] == RowTiles(g, m - 1);
      assert g[m - 1][..|g[m - 1]|] == g[m - 1];
    }
  }

  /** Together the two lists are exactly as long as the grid has placed tiles. */
  lemma PartitionCount(g: Layout)
    ensures |CollidableTiles(g)| + |NonCollidableTiles(g)| == CountPlaced(g, |g|)
  {
    FilterSplitCount(Cells(g), IsPlaced(), IsCollidable(g), IsNonCollidable(g),
                     (t: Tile) => !Enclosed(g, t.x, t.y));
    PlacedCount(g, |g|);
  }

  // ---------------------------------------------------------------------
  // A worked case: a plus sign of five tiles

  function Keep(t: Tile, p: Tile -> bool): seq<Tile> {
    if p(t) then [t] else []
  }

  lemma FilterThree(a: Tile, b: Tile, c: Tile, p: Tile -> bool)
    ensures Filter([a, b, c], p) == Keep(a, p) + Keep(b, p) + Keep(c, p)
  {
    var e: seq<Tile> := [];
    FilterSnoc(e, a, p);
    assert e + [a] == [a];
    assert Filter([a], p) == Keep(a, p);
    FilterSnoc([a], b, p);
    assert [a] + [b] == [a, b];
    assert Filter([a, b], p) == Keep(a, p) + Keep(b, p);
    FilterSnoc([a, b], c, p);
    assert [a, b] + [c] == [a, b, c];
  }

  lemma PlusSignCells(g: Layout)
    requires g == [[0, 1, 0], [1, 1, 1], [0, 1, 0]]
    ensures Cells(g) == [Tile(0, 0, 0), Tile(1, 1, 0), Tile(0, 2, 0)]
                      + [Tile(1, 0, 1), Tile(1, 1, 1), Tile(1, 2, 1)]
                      + [Tile(0, 0, 2), Tile(1, 1, 2), Tile(0, 2, 2)]
  {
    assert RowTiles(g, 0) == [Tile(0, 0, 0), Tile(1, 1, 0), Tile(0, 2, 0)];
    assert RowTiles(g, 1) == [Tile(1, 0, 1), Tile(1, 1, 1), Tile(1, 2, 1)];
    assert RowTiles(g, 2) == [Tile(0, 0, 2), Tile(1, 1, 2), Tile(0, 2, 2)];
    assert RowsPrefix(g, 1) == RowsPrefix(g, 0) + RowTiles(g, 0) == RowTiles(g, 0);
    assert RowsPrefix(g, 2) == RowsPrefix(g, 1) + RowTiles(g, 1);
    assert RowsPrefix(g, 3) == RowsPrefix(g, 2) + RowTiles(g, 2);
  }

  lemma PlusSignNeighbours(g: Layout)
    requires g == [[0, 1, 0], [1, 1, 1], [0, 1, 0]]
    ensures Enclosed(g, 1, 1)
    ensures !Enclosed(g, 1, 0) && !Enclosed(g, 0, 1) && !Enclosed(g, 2, 1) && !Enclosed(g, 1, 2)
  {
    assert Get(g, 1, -1) == 0 && Get(g, -1, 1) == 0 && Get(g, 3, 1) == 0 && Get(g, 1, 3) == 0;
  }

  lemma PlusSignRows(g: Layout)
    requires g == [[0, 1, 0], [1, 1, 1], [0, 1, 0]]
    ensures Filter([Tile(0, 0, 0), Tile(1, 1, 0), Tile(0, 2, 0)], IsCollidable(g)) == [Tile(1, 1, 0)]
    ensures Filter([Tile(1, 0, 1), Tile(1, 1, 1), Tile(1, 2, 1)], IsCollidable(g)) == [Tile(1, 0, 1), Tile(1, 2, 1)]
    ensures Filter([Tile(0, 0, 2), Tile(1, 1, 2), Tile(0, 2, 2)], IsCollidable(g)) == [Tile(1, 1, 2)]
    ensures Filter([Tile(0, 0, 0), Tile(1, 1, 0), Tile(0, 2, 0)], IsNonCollidable(g)) == []
    ensures Filter([Tile(1, 0, 1), Tile(1, 1, 1), Tile(1, 2, 1)], IsNonCollidable(g)) == [Tile(1, 1, 1)]
    ensures Filter([Tile(0, 0, 2), Tile(1, 1, 2), Tile(0, 2, 2)], IsNonCollidable(g)) == []
  {
    PlusSignNeighbours(g);
    FilterThree(Tile(0, 0, 0), Tile(1, 1, 0), Tile(0, 2, 0), IsCollidable(g));
    FilterThree(Tile(1, 0, 1), Tile(1, 1, 1), Tile(1, 2, 1), IsCollidable(g));
    FilterThree(Tile(0, 0, 2), Tile(1, 1, 2), Tile(0, 2, 2), IsCollidable(g));
    FilterThree(Tile(0, 0, 0), Tile(1, 1, 0), Tile(0, 2, 0), IsNonCollidable(g));
    FilterThree(Tile(1, 0, 1), Tile(1, 1, 1), Tile(1, 2, 1), IsNonCollidable(g));
    FilterThree(Tile(0, 0, 2), Tile(1, 1, 2), Tile(0, 2, 2), IsNonCollidable(g));
  }

  /** The plus sign `[[0,1,0],[1,1,1],[0,1,0]]`: only the centre is enclosed. */
  lemma PlusSignExample(g: Layout)
    requires g == [[0, 1, 0], [1, 1, 1], [0, 1, 0]]
    ensures CollidableTiles(g) == [Tile(1, 1, 0), Tile(1, 0, 1), Tile(1, 2, 1), Tile(1, 1, 2)]
    ensures NonCollidableTiles(g) == [Tile(1, 1, 1)]
  {
    var r0 := [Tile(0, 0, 0), Tile(1, 1, 0), Tile(0, 2, 0)];
    var r1 := [Tile(1, 0, 1), Tile(1, 1, 1), Tile(1, 2, 1)];
    var r2 := [Tile(0, 0, 2), Tile(1, 1, 2), Tile(0, 2, 2)];
    PlusSignCells(g);
    PlusSignRows(g);
    FilterAppend(r0 + r1, r2, IsCollidable(g));
    FilterAppend(r0, r1, IsCollidable(g));
    FilterAppend(r0 + r1, r2, IsNonCollidable(g));
    FilterAppend(r0, r1, IsNonCollidable(g));
  }
}

=== FILE: editor.dfy ===
/** The level editor of `scripts/editor.py` as a state record and one
    transition function per operation. Once a level has been saved, the
    Python object keeps the level being edited (`levelmap`) as the same list
    object as `world[levelid-1]`; here it is a value, and `save_level` writes
    it back, which gives the same observable states. */
module LevelEditor {
  import opened Builtins
  import opened TileGrid
  import opened Worlds
  import opened Viewport

  const DEFAULT_BG_COLOR: Color := Color(0, 80, 100)
  /** Size of the editor window, `(WIDTH, HEIGHT)`. */
  const WINDOW_SIZE: Vec := Vec(1080.0, 720.0)
  /** Size of the editor's camera surface. */
  const EDITOR_VIEW_SIZE: Vec := Vec(800.0, 600.0)
  const MIN_ZOOM: real := 0.1
  const MAX_ZOOM: real := 2.0
  /** Zoom change per mouse-wheel notch. */
  const ZOOM_STEP: real := 0.1
  /** Scroll speed per frame at zoom 1 with a window the size of the surface. */
  const SCROLL_STEP: real := 5.0

  /** `STATE_EDITOR` (painting) or `STATE_TILESET` (picking a tile). */
  datatype Mode = EditorMode | TilesetMode

  datatype Tool = Brush | Erase

  datatype EditorState = EditorState(
    world: seq<Layout>,          // the saved layout of every level, level i+1 at index i
    levelBgColor: seq<Color>,    // background colour of level i+1 at index i
    levelmap: Layout,            // the layout being edited
    levelid: int,                // 1-based number of the level being edited
    worldName: string,
    tileset: string,
    objset: string,
    mode: Mode,
    selectedTile: int,
    tool: Tool,
    camera: Camera)

  /** Navigation invariant: either nothing has been saved yet and level 1 is
      open, or the open level is one of the saved ones; and there is a
      background colour for every saved level and for the open one. It keeps
      `level_bg_color[levelid - 1]` (drawing) and `level_bg_color[i]`
      (export) in range. */
  predicate NavigationInvariant(s: EditorState) {
    && ((s.world == [] && s.levelid == 1) || 1 <= s.levelid <= |s.world|)
    && |s.levelBgColor| >= Max(|s.world|, s.levelid)
  }

  /** Colours and levels move in lockstep: one colour per saved level, or a
      single colour while nothing has been saved. */
  predicate ColorsInLockstep(s: EditorState) {
    |s.levelBgColor| == Max(|s.world|, 1)
  }

  /** `Editor.__init__` (with `create_tilemap`): an empty world, level 1 open
      with an empty layout, one default background. */
  function NewEditor(sheetSize: nat): (s: EditorState)
    ensures NavigationInvariant(s) && ColorsInLockstep(s)
    ensures s.world == [] && s.levelmap == [] && s.levelid == 1 && s.levelBgColor == [DEFAULT_BG_COLOR]
    ensures s.tileset == "smb_map" && s.objset == "smb_obj" && s.worldName == ""
    ensures s.mode == EditorMode && s.selectedTile == 1 && s.tool == Brush
    ensures s.camera.size == EDITOR_VIEW_SIZE && s.camera.sheetSize == sheetSize
    ensures Scrolled(s.camera) && s.camera.zoom == 0.5
    ensures s.camera.position == Vec(0.0, 0.0) && s.camera.cameraPosition == Vec(0.0, 0.0)
    ensures s.camera == NewCamera(EDITOR_VIEW_SIZE, sheetSize) && s.camera.tilesize == Vec(40.0, 30.0)
  {
    EditorState([], [DEFAULT_BG_COLOR], [], 1, "", "smb_map", "smb_obj",
                EditorMode, 1, Brush, NewCamera(EDITOR_VIEW_SIZE, sheetSize))
  }

  /** `level_bg_color[levelid - 1]`, as `render` reads it each frame. */
  function CurrentBackground(s: EditorState): (r: Result<Color>)
    ensures NavigationInvariant(s) ==> r == Ok(s.levelBgColor[s.levelid - 1])
  {
    match PyIndex(s.levelid - 1, |s.levelBgColor|)
    case None => Err(IndexError)
    case Some(i) => Ok(s.levelBgColor[i])
  }

  // ---------------------------------------------------------------------
  // Level navigation

  /** `new_level`: one more level with an empty layout and the default colour. */
  function NewLevel(s: EditorState): (r: EditorState)
    ensures r == s.(world := r.world, levelBgColor := r.levelBgColor)
    ensures |r.world| == |s.world| + 1 && r.world[..|s.world|] == s.world && r.world[|s.world|] == []
    ensures |r.levelBgColor| == |s.levelBgColor| + 1 && r.levelBgColor[|s.levelBgColor|] == DEFAULT_BG_COLOR
    ensures r.levelBgColor[..|s.levelBgColor|] == s.levelBgColor
    ensures NavigationInvariant(s) ==> NavigationInvariant(r)
  {
    s.(world := s.world + [[]], levelBgColor := s.levelBgColor + [DEFAULT_BG_COLOR])
  }

  /** `save_level`: store the open layout as level `levelid`, appending it
      when the world has fewer levels. A `levelid` below 1 indexes from the
      end of the list, as Python does. */
  function SaveLevel(s: EditorState): (r: Result<EditorState>)
    ensures r.Ok? ==> r.value == s.(world := r.value.world)
    ensures s.levelid > |s.world| ==> r == Ok(s.(world := s.world + [s.levelmap]))
    ensures 1 <= s.levelid <= |s.world| ==> r == Ok(s.(world := s.world[s.levelid - 1 := s.levelmap]))
    ensures NavigationInvariant(s) ==>
      && r.Ok? && NavigationInvariant(r.value)
      && 1 <= s.levelid <= |r.value.world| == Max(|s.world|, 1)
      && r.value.world[s.levelid - 1] == s.levelmap
      && (forall i :: 0 <= i < |s.world| && i != s.levelid - 1 ==> r.value.world[i] == s.world[i])
    ensures ColorsInLockstep(s) && NavigationInvariant(s) ==> |r.value.levelBgColor| == |r.value.world|
  {
    if s.levelid > |s.world| then Ok(s.(world := s.world + [s.levelmap]))
    else match PyIndex(s.levelid - 1, |s.world|)
      case None => Err(IndexError)
      case Some(i) => Ok(s.(world := s.world[i := s.levelmap]))
  }

  /** `set_level(id)`: ids below 1 are ignored; otherwise save the open level,
      add one empty level if `id` is past the end, and open level `id`. An
      `id` more than one past the end raises IndexError. */
  function SetLevel(s: EditorState, id: int): (r: Result<EditorState>)
    ensures id < 1 ==> r == Ok(s)
    ensures id >= 1 && r.Ok? ==>
      r.value.levelid == id && id <= |r.value.world| && r.value.levelmap == r.value.world[id - 1]
    ensures NavigationInvariant(s) ==> (r.Ok? <==> id < 1 || id <= Max(|s.world|, 1) + 1)
    ensures NavigationInvariant(s) && r.Ok? ==> NavigationInvariant(r.value)
    ensures NavigationInvariant(s) && id >= 1 && r.Ok? ==>
      var saved := SaveLevel(s).value;
      || (r.value.world == saved.world && r.value.levelBgColor == saved.levelBgColor)
      || (r.value.world == saved.world + [[]] && r.value.levelBgColor == saved.levelBgColor + [DEFAULT_BG_COLOR])
    ensures id >= 1 && r.Ok? ==>
      r.value == s.(world := r.value.world, levelBgColor := r.value.levelBgColor,
                    levelmap := r.value.levelmap, levelid := id)
    ensures NavigationInvariant(s) && 1 <= id <= Max(|s.world|, 1) ==>
      && r.Ok?
      && r.value.world == SaveLevel(s).value.world
      && r.value.levelBgColor == s.levelBgColor
    ensures NavigationInvariant(s) && id == Max(|s.world|, 1) + 1 ==>
      && r.Ok?
      && r.value.world == SaveLevel(s).value.world + [[]]
      && r.value.levelBgColor == s.levelBgColor + [DEFAULT_BG_COLOR]
    ensures NavigationInvariant(s) && ColorsInLockstep(s) && r.Ok? ==> ColorsInLockstep(r.value)
  {
    if id < 1 then Ok(s)
    else
      var saved :- SaveLevel(s);
      var grown := if id > |saved.world| then NewLevel(saved) else saved;
      if id - 1 < |grown.world| then Ok(grown.(levelmap := grown.world[id - 1], levelid := id))
      else Err(IndexError)
  }

  /** The arrow keys call `set_level(levelid + 1)` and `set_level(levelid - 1)`;
      from any state satisfying the invariant both succeed and keep it. */
  lemma ArrowKeysNavigate(s: EditorState)
    requires NavigationInvariant(s)
    ensures SetLevel(s, s.levelid + 1).Ok? && NavigationInvariant(SetLevel(s, s.levelid + 1).value)
    ensures SetLevel(s, s.levelid - 1).Ok? && NavigationInvariant(SetLevel(s, s.levelid - 1).value)
  {
  }

  /** Edits to the open level survive navigating to another level and back. */
  lemma EditsSurviveNavigation(s: EditorState, id: int)
    requires NavigationInvariant(s)
    requires id >= 1 && SetLevel(s, id).Ok?
    ensures SetLevel(SetLevel(s, id).value, s.levelid).Ok?
    ensures SetLevel(SetLevel(s, id).value, s.levelid).value.levelmap == s.levelmap
  {
    var saved := SaveLevel(s).value;
    var s1 := SetLevel(s, id).value;
    assert s1.world[s.levelid - 1] == s.levelmap;
    var saved1 := SaveLevel(s1).value;
    assert saved1.world == s1.world[id - 1 := s1.levelmap] == s1.world;
  }

  /** `b_new`: forget every level and reopen level 1 with an empty layout and
      the default colour; the tileset and objset names are reset (the objset
      to "smp_obj", as the source spells it here). `update_spritesheets` then
      reloads the tilesheet; `sheetSize` is the number of images it yields. */
  function BNew(s: EditorState, sheetSize: nat): (r: EditorState)
    ensures NavigationInvariant(r) && ColorsInLockstep(r)
    ensures r.world == [] && r.levelmap == [] && r.levelid == 1 && r.levelBgColor == [DEFAULT_BG_COLOR]
    ensures r.tileset == "smb_map" && r.objset == "smp_obj"
    ensures r == s.(world := [], levelBgColor := [DEFAULT_BG_COLOR], levelmap := [], levelid := 1,
                    tileset := r.tileset, objset := r.objset, camera := r.camera)
    ensures r.camera == s.camera.(sheetSize := sheetSize)
  {
    s.(world := [], levelBgColor := [DEFAULT_BG_COLOR], levelmap := [], levelid := 1,
       tileset := "smb_map", objset := "smp_obj", camera := s.camera.(sheetSize := sheetSize))
  }

  // ---------------------------------------------------------------------
  // Export and import, as dictionaries (the JSON text is not modelled)

  /** The `"levels"` entries of an export: level `i` pairs `level_bg_color[i]`
      with `world[i]`; a missing colour is an IndexError. */
  function ExportLevels(world: seq<Layout>, colors: seq<Color>): (r: Result<seq<LevelData>>)
    ensures r.Ok? <==> |colors| >= |world|
    ensures r.Ok? ==>
      && |r.value| == |world|
      && forall i :: 0 <= i < |world| ==> r.value[i] == LevelData(colors[i], world[i])
  {
    if |colors| < |world| then Err(IndexError)
    else Ok(seq(|world|, i requires 0 <= i < |world| => LevelData(colors[i], world[i])))
  }

  /** `b_export` after the file was chosen: save the open level, then build the
      world dictionary with keys "1", "2", … . `name` is the file's base name. */
  function Export(s: EditorState, name: string): (r: Result<(EditorState, WorldData)>)
    ensures NavigationInvariant(s) ==> r.Ok?
    ensures r.Ok? ==> SaveLevel(s) == Ok(r.value.0)
    ensures r.Ok? ==>
      var (saved, data) := r.value;
      && data.name == name && data.tileset == s.tileset && data.objset == s.objset
      && |data.levels| == |saved.world| <= |saved.levelBgColor|
      && DistinctKeys(data.levels)
      && forall i :: 0 <= i < |saved.world| ==>
           data.levels[i] == (Str(i + 1), LevelData(saved.levelBgColor[i], saved.world[i]))
  {
    var saved :- SaveLevel(s);
    var levels :- ExportLevels(saved.world, saved.levelBgColor);
    Ok((saved, WorldData(name, s.tileset, s.objset, NumberedLevels(levels))))
  }

  /** `b_import` after the file was parsed: rebuild the levels and colours in
      dictionary order and open level 1; `update_spritesheets` reloads the
      tilesheet, of `sheetSize` images. A world with no levels raises
      IndexError at `world[0]`. */
  function Import(s: EditorState, data: WorldData, sheetSize: nat): (r: Result<EditorState>)
    requires DistinctKeys(data.levels)
    ensures r.Ok? <==> |data.levels| > 0
    ensures r.Ok? ==>
      r.value == s.(world := r.value.world, levelBgColor := r.value.levelBgColor,
                    levelmap := r.value.levelmap, levelid := 1, tileset := data.tileset,
                    objset := data.objset, worldName := data.name,
                    camera := s.camera.(sheetSize := sheetSize))
    ensures r.Ok? ==>
      && NavigationInvariant(r.value) && ColorsInLockstep(r.value)
      && |r.value.world| == |r.value.levelBgColor| == |data.levels|
      && (forall i :: 0 <= i < |data.levels| ==>
            r.value.world[i] == data.levels[i].1.layout
            && r.value.levelBgColor[i] == data.levels[i].1.background)
      && r.value.levelid == 1 && r.value.levelmap == r.value.world[0]
      && r.value.tileset == data.tileset && r.value.objset == data.objset
      && r.value.worldName == data.name
  {
    var world := seq(|data.levels|, i requires 0 <= i < |data.levels| => data.levels[i].1.layout);
    var colors := seq(|data.levels|, i requires 0 <= i < |data.levels| => data.levels[i].1.background);
    if |world| == 0 then Err(IndexError)
    else Ok(s.(world := world, levelBgColor := colors, levelmap := world[0], levelid := 1,
               tileset := data.tileset, objset := data.objset, worldName := data.name,
               camera := s.camera.(sheetSize := sheetSize)))
  }

  /** Importing what was exported restores every saved level and its colour,
      the tileset and objset names, and reopens level 1. */
  lemma ExportImportRoundTrip(s: EditorState, name: string, target: EditorState, sheetSize: nat)
    requires NavigationInvariant(s)
    ensures Export(s, name).Ok?
    ensures var (saved, data) := Export(s, name).value;
      && Import(target, data, sheetSize).Ok?
      && var r := Import(target, data, sheetSize).value;
      && r.world == saved.world
      && r.levelBgColor == saved.levelBgColor[..|saved.world|]
      && r.tileset == s.tileset
      && r.objset == s.objset
      && r.worldName == name
      && r.levelid == 1
      && r.levelmap == saved.world[0]
  {
    var (saved, data) := Export(s, name).value;
    var r := Import(target, data, sheetSize).value;
    assert r.world == saved.world;
    assert r.levelBgColor == saved.levelBgColor[..|saved.world|];
  }

  /** With colours in lockstep the round trip restores the colour list whole. */
  lemma ExportImportRestoresColors(s: EditorState, name: string, target: EditorState, sheetSize: nat)
    requires NavigationInvariant(s) && ColorsInLockstep(s)
    ensures Export(s, name).Ok?
    ensures Import(target, Export(s, name).value.1, sheetSize).Ok?
    ensures Import(target, Export(s, name).value.1, sheetSize).value.levelBgColor == Export(s, name).value.0.levelBgColor
  {
    ExportImportRoundTrip(s, name, target, sheetSize);
    var saved := Export(s, name).value.0;
    assert saved.levelBgColor[..|saved.world|] == saved.levelBgColor;
  }

  /** A world loaded from an export finds every level under its number. */
  lemma ExportedWorldLookup(s: EditorState, name: string, id: int)
    requires NavigationInvariant(s)
    ensures Export(s, name).Ok?
    ensures var (saved, data) := Export(s, name).value;
      var w := NewWorld(data.name, data.tileset, data.objset, data.levels);
      && w.length == |saved.world|
      && (1 <= id <= |saved.world| ==>
            GetLevel(w, id) == Ok(Some(LevelData(saved.levelBgColor[id - 1], saved.world[id - 1]))))
      && (id > |saved.world| ==> GetLevel(w, id) == Ok(None))
  {
    var saved := SaveLevel(s).value;
    var levels := ExportLevels(saved.world, saved.levelBgColor).value;
    NumberedLevelLookup(name, s.tileset, s.objset, levels, id);
  }

  // ---------------------------------------------------------------------
  // Camera controls

  /** `zoom_camera(wheel)`: in painting mode, step the zoom by 0.1 per notch,
      clamp it to `[0.1, 2]` and recompute the tile size; otherwise nothing. */
  function ZoomCamera(s: EditorState, wheel: int): (r: EditorState)
    ensures s.mode != EditorMode ==> r == s
    ensures s.mode == EditorMode ==>
      var z := s.camera.zoom + ZOOM_STEP * wheel as real;
      && r == s.(camera := r.camera)
      && r.camera == s.camera.(zoom := r.camera.zoom, tilesize := r.camera.tilesize)
      && MIN_ZOOM <= r.camera.zoom <= MAX_ZOOM
      && (MIN_ZOOM <= z <= MAX_ZOOM ==> r.camera.zoom == z)
      && (z < MIN_ZOOM ==> r.camera.zoom == MIN_ZOOM)
      && (z > MAX_ZOOM ==> r.camera.zoom == MAX_ZOOM)
      && r.camera.tilesize == TileSize(s.camera.size, r.camera.zoom)
  {
    if s.mode != EditorMode then s
    else
      var z := s.camera.zoom + ZOOM_STEP * wheel as real;
      var z1 := if z > MAX_ZOOM then MAX_ZOOM else z;
      var z2 := if z1 < MIN_ZOOM then MIN_ZOOM else z1;
      s.(camera := WithTilesize(s.camera.(zoom := z2)))
  }

  /** The movement keys held during a frame. */
  datatype Keys = Keys(w: bool, a: bool, s: bool, d: bool)

  function Held(k: bool): real {
    if k then 1.0 else 0.0
  }

  /** `move_camera`: scroll by a zoom-scaled step per held key, then clamp
      each axis of the offset at 0. */
  function MoveCamera(s: EditorState, keys: Keys): (r: EditorState)
    requires s.camera.size.x != 0.0 && s.camera.size.y != 0.0
    ensures r == s.(camera := s.camera.(position := r.camera.position))
    ensures r.camera.position.x >= 0.0 && r.camera.position.y >= 0.0
    ensures var stepX := SCROLL_STEP * s.camera.zoom / (WINDOW_SIZE.x / s.camera.size.x);
      var x := s.camera.position.x - stepX * Held(keys.a) + stepX * Held(keys.d);
      && (x >= 0.0 ==> r.camera.position.x == x)
      && (x < 0.0 ==> r.camera.position.x == 0.0)
    ensures var stepY := SCROLL_STEP * s.camera.zoom / (WINDOW_SIZE.y / s.camera.size.y);
      var y := s.camera.position.y - stepY * Held(keys.w) + stepY * Held(keys.s);
      && (y >= 0.0 ==> r.camera.position.y == y)
      && (y < 0.0 ==> r.camera.position.y == 0.0)
  {
    var stepX := SCROLL_STEP * s.camera.zoom / (WINDOW_SIZE.x / s.camera.size.x);
    var stepY := SCROLL_STEP * s.camera.zoom / (WINDOW_SIZE.y / s.camera.size.y);
    var y := s.camera.position.y - stepY * Held(keys.w) + stepY * Held(keys.s);
    var x := s.camera.position.x - stepX * Held(keys.a) + stepX * Held(keys.d);
    var x1 := if x < 0.0 then 0.0 else x;
    var y1 := if y < 0.0 then 0.0 else y;
    s.(camera := s.camera.(position := Vec(x1, y1)))
  }

  /** Holding the up and left keys at the origin keeps the view at the origin. */
  lemma ScrollStopsAtOrigin(s: EditorState)
    requires s.camera.size.x > 0.0 && s.camera.size.y > 0.0 && s.camera.zoom > 0.0
    requires s.camera.position == Vec(0.0, 0.0)
    ensures MoveCamera(s, Keys(true, true, false, false)).camera.position == Vec(0.0, 0.0)
  {
    var stepX := SCROLL_STEP * s.camera.zoom / (WINDOW_SIZE.x / s.camera.size.x);
    var stepY := SCROLL_STEP * s.camera.zoom / (WINDOW_SIZE.y / s.camera.size.y);
    assert WINDOW_SIZE.x / s.camera.size.x > 0.0 && WINDOW_SIZE.y / s.camera.size.y > 0.0;
    assert stepX > 0.0 && stepY > 0.0;
  }

  // ---------------------------------------------------------------------
  // Tools

  /** `brush_tool` / `erase_tool` with the written value as a parameter: pick
      the 1-based cell under the mouse and grow-and-write it. */
  function PaintAt(s: EditorState, mouse: Vec, v: int): (r: Result<EditorState>)
    requires s.camera.tilesize.x != 0.0 && s.camera.tilesize.y != 0.0
    ensures r.Ok? ==> r.value == s.(levelmap := r.value.levelmap)
    ensures var (gx, gy) := ScreenToGrid(s.camera, mouse);
      1 <= gx && 1 <= gy ==> r.Ok? && GrownAndWritten(s.levelmap, gx - 1, gy - 1, v, r.value.levelmap)
  {
    var (gx, gy) := ScreenToGrid(s.camera, mouse);
    var g :- WriteCell(s.levelmap, gx, gy, v);
    Ok(s.(levelmap := g))
  }

  /** The state every reachable camera is in: positive tile sizes (the zoom
      never drops below 0.1) and an offset `move_camera` has clamped at 0. */
  predicate Scrolled(cam: Camera) {
    cam.tilesize.x > 0.0 && cam.tilesize.y > 0.0 && cam.position.x >= 0.0 && cam.position.y >= 0.0
  }

  /** Zooming and scrolling keep the camera in that state, so the editor's
      camera is always in it. */
  lemma CameraControlsKeepScrolled(s: EditorState, wheel: int, keys: Keys)
    requires s.camera.size.x > 0.0 && s.camera.size.y > 0.0 && Scrolled(s.camera)
    ensures Scrolled(ZoomCamera(s, wheel).camera)
    ensures Scrolled(MoveCamera(s, keys).camera)
  {
  }

  /** `brush_tool`: with the mouse over the surface and the view scrolled to
      non-negative offsets, the cell under the mouse (1-based `(gx, gy)`)
      holds the selected tile afterwards, the grid grown as needed. */
  function BrushTool(s: EditorState, mouse: Vec): (r: Result<EditorState>)
    requires s.camera.tilesize.x != 0.0 && s.camera.tilesize.y != 0.0
    ensures r.Ok? ==> r.value == s.(levelmap := r.value.levelmap)
    ensures Scrolled(s.camera) && InView(s.camera, mouse) ==>
      var (gx, gy) := ScreenToGrid(s.camera, mouse);
      && gx >= 1 && gy >= 1 && r.Ok?
      && GrownAndWritten(s.levelmap, gx - 1, gy - 1, s.selectedTile, r.value.levelmap)
  {
    PaintAt(s, mouse, s.selectedTile)
  }

  /** `erase_tool`: as the brush, writing 0; the grid still grows. */
  function EraseTool(s: EditorState, mouse: Vec): (r: Result<EditorState>)
    requires s.camera.tilesize.x != 0.0 && s.camera.tilesize.y != 0.0
    ensures r.Ok? ==> r.value == s.(levelmap := r.value.levelmap)
    ensures Scrolled(s.camera) && InView(s.camera, mouse) ==>
      var (gx, gy) := ScreenToGrid(s.camera, mouse);
      && gx >= 1 && gy >= 1 && r.Ok?
      && GrownAndWritten(s.levelmap, gx - 1, gy - 1, 0, r.value.levelmap)
  {
    PaintAt(s, mouse, 0)
  }

  /** Using the brush twice at one point is using it once; so is erasing. */
  lemma ToolsIdempotent(s: EditorState, mouse: Vec)
    requires s.camera.tilesize.x != 0.0 && s.camera.tilesize.y != 0.0
    ensures BrushTool(s, mouse).Ok? ==> BrushTool(BrushTool(s, mouse).value, mouse) == BrushTool(s, mouse)
    ensures EraseTool(s, mouse).Ok? ==> EraseTool(EraseTool(s, mouse).value, mouse) == EraseTool(s, mouse)
  {
    var (gx, gy) := ScreenToGrid(s.camera, mouse);
    if BrushTool(s, mouse).Ok? {
      WriteCellIdempotent(s.levelmap, gx, gy, s.selectedTile);
    }
    if EraseTool(s, mouse).Ok? {
      WriteCellIdempotent(s.levelmap, gx, gy, 0);
    }
  }

  /** Painting and then erasing at one point empties that cell and never
      shrinks the grid. */
  lemma PaintThenErase(s: EditorState, mouse: Vec)
    requires Scrolled(s.camera) && InView(s.camera, mouse)
    ensures BrushTool(s, mouse).Ok? && EraseTool(BrushTool(s, mouse).value, mouse).Ok?
    ensures var (gx, gy) := ScreenToGrid(s.camera, mouse);
      var g := EraseTool(BrushTool(s, mouse).value, mouse).value.levelmap;
      && Get(g, gx - 1, gy - 1) == 0
      && |g| >= |s.levelmap|
      && forall y :: 0 <= y < |s.levelmap| ==> |g[y]| >= |s.levelmap[y]|
  {
  }

  /** `handle_tools`: with the mouse over the surface, in painting mode and
      the left button held, apply the current tool; otherwise nothing. */
  function HandleTools(s: EditorState, mouse: Vec, leftButton: bool): (r: Result<EditorState>)
    requires s.camera.tilesize.x != 0.0 && s.camera.tilesize.y != 0.0
    ensures !InView(s.camera, mouse) || s.mode != EditorMode || !leftButton ==> r == Ok(s)
    ensures r.Ok? ==> r.value == s.(levelmap := r.value.levelmap)
    ensures Scrolled(s.camera) ==> r.Ok?
    ensures InView(s.camera, mouse) && s.mode == EditorMode && leftButton ==>
      r == PaintAt(s, mouse, if s.tool == Brush then s.selectedTile else 0)
    ensures Scrolled(s.camera) && InView(s.camera, mouse) && s.mode == EditorMode && leftButton ==>
      var (gx, gy) := ScreenToGrid(s.camera, mouse);
      && r.Ok?
      && GrownAndWritten(s.levelmap, gx - 1, gy - 1, if s.tool == Brush then s.selectedTile else 0, r.value.levelmap)
  {
    if !InView(s.camera, mouse) then Ok(s)
    else if s.mode != EditorMode then Ok(s)
    else if !leftButton then Ok(s)
    else match s.tool
      case Brush => BrushTool(s, mouse)
      case Erase => EraseTool(s, mouse)
  }
}

=== FILE: seq_filter.dfy ===
/** Order-preserving filtering of sequences. The level scan, the draw loop
    and the debug overlay all walk a sequence of cells and keep the ones a
    test accepts, so the facts about that walk are proved once here. */
module SeqFilter {

  /** The elements of `s` that satisfy `p`, in their original order. Defined
      from the back so that one more element appended to `s` is one more step. */
  function Filter<T>(s: seq<T>, p: T -> bool): (r: seq<T>)
    ensures |r| <= |s|
    decreases |s|
  {
    if s == [] then []
    else Filter(s[..|s| - 1], p) + (if p(s[|s| - 1]) then [s[|s| - 1]] else [])
  }

  lemma FilterSnoc<T>(s: seq<T>, x: T, p: T -> bool)
    ensures Filter(s + [x], p) == Filter(s, p) + (if p(x) then [x] else [])
  {
    assert (s + [x])[..|s|] == s;
  }

  lemma {:induction false} FilterAppend<T>(a: seq<T>, b: seq<T>, p: T -> bool)
    ensures Filter(a + b, p) == Filter(a, p) + Filter(b, p)
    decreases |b|
  {
    if b == [] {
      assert a + b == a;
    } else {
      var b' := b[..|b| - 1];
      var x := b[|b| - 1];
      assert b == b' + [x];
      assert a + b == (a + b') + [x];
      FilterAppend(a, b', p);
      FilterSnoc(a + b', x, p);
      FilterSnoc(b', x, p);
    }
  }

  /** An element is kept exactly when it occurs in `s` and passes the test. */
  lemma {:induction false} FilterMembership<T>(s: seq<T>, p: T -> bool, x: T)
    ensures x in Filter(s, p) <==> x in s && p(x)
    decreases |s|
  {
    if s != [] {
      var s' := s[..|s| - 1];
      assert s == s' + [s[|s| - 1]];
      FilterMembership(s', p, x);
    }
  }

  /** Pairwise ordered: every earlier element stands in `before` to every later one. */
  ghost predicate Ordered<T>(s: seq<T>, before: (T, T) -> bool) {
    forall i, j :: 0 <= i < j < |s| ==> before(s[i], s[j])
  }

  /** Two ordered runs, every element of the first before every element of
      the second, make one ordered run. */
  lemma OrderedAppend<T>(a: seq<T>, b: seq<T>, before: (T, T) -> bool)
    requires Ordered(a, before) && Ordered(b, before)
    requires forall x, y :: x in a && y in b ==> before(x, y)
    ensures Ordered(a + b, before)
  {
    forall i, j | 0 <= i < j < |a + b|
      ensures before((a + b)[i], (a + b)[j])
    {
      if j < |a| {
        assert (a + b)[i] == a[i] && (a + b)[j] == a[j];
      } else if i < |a| {
        assert (a + b)[i] in a && (a + b)[j] in b;
      } else {
        assert (a + b)[i] == b[i - |a|] && (a + b)[j] == b[j - |a|];
      }
    }
  }

  /** Filtering keeps a subsequence, so it keeps every pairwise ordering. */
  lemma {:induction false} FilterOrdered<T>(s: seq<T>, p: T -> bool, before: (T, T) -> bool)
    requires Ordered(s, before)
    ensures Ordered(Filter(s, p), before)
    decreases |s|
  {
    if s != [] {
      var s' := s[..|s| - 1];
      var x := s[|s| - 1];
      assert Ordered(s', before);
      FilterOrdered(s', p, before);
      var f := Filter(s', p);
      forall i | 0 <= i < |f|
        ensures before(f[i], x)
      {
        FilterMembership(s', p, f[i]);
        var k :| 0 <= k < |s'| && s'[k] == f[i];
        assert s[k] == f[i];
      }
    }
  }

  /** Splitting the kept elements of `s` by a second test `q`: the two halves
      together are as many as the whole. */
  lemma {:induction false} FilterSplitCount<T>(s: seq<T>, p: T -> bool, yes: T -> bool, no: T -> bool, q: T -> bool)
    requires forall x :: yes(x) == (p(x) && q(x))
    requires forall x :: no(x) == (p(x) && !q(x))
    ensures |Filter(s, yes)| + |Filter(s, no)| == |Filter(s, p)|
    decreases |s|
  {
    if s != [] {
      FilterSplitCount(s[..|s| - 1], p, yes, no, q);
    }
  }

  /** Filtering twice is filtering once by the conjunction of the tests. */
  lemma {:induction false} FilterFilter<T>(s: seq<T>, p: T -> bool, q: T -> bool, both: T -> bool)
    requires forall x :: both(x) == (p(x) && q(x))
    ensures Filter(Filter(s, p), q) == Filter(s, both)
    decreases |s|
  {
    if s != [] {
      var s' := s[..|s| - 1];
      var x := s[|s| - 1];
      assert s == s' + [x];
      FilterFilter(s', p, q, both);
      FilterSnoc(s', x, p);
      FilterSnoc(s', x, both);
      if p(x) {
        FilterSnoc(Filter(s', p), x, q);
      } else {
        assert Filter(s, p) == Filter(s', p);
      }
    }
  }
}

=== FILE: tile_grid.dfy ===
/** A level's layout: a jagged grid of tile identifiers, stored row by row
    (`layout[y][x]`, 0-based), where 0 means "no tile" and rows may have
    different lengths. */
module TileGrid {
  import opened Builtins
  import opened SeqFilter

  type Layout = seq<seq<int>>

  /** One cell of a layout as the scans report it: `(tile_id, x, y)`. */
  datatype Tile = Tile(id: int, x: nat, y: nat)

  function Max(a: int, b: int): int {
    if a < b then b else a
  }

  /** The identifier at column `x` of row `y`; a cell outside the grid, or
      beyond the end of a shorter row, reads as empty. */
  function Get(g: Layout, x: int, y: int): (v: int)
    ensures v != 0 ==> 0 <= y < |g| && 0 <= x < |g[y]| && v == g[y][x]
  {
    if 0 <= y < |g| && 0 <= x < |g[y]| then g[y][x] else 0
  }

  /** The length of row `y`, or 0 for a row the grid does not have. */
  function RowLen(g: Layout, y: int): nat {
    if 0 <= y < |g| then |g[y]| else 0
  }

  /** `t` is a genuine cell of `g`: in range, and carrying the grid's value. */
  ghost predicate IsCellOf(g: Layout, t: Tile) {
    t.y < |g| && t.x < |g[t.y]| && t.id == g[t.y][t.x]
  }

  // ---------------------------------------------------------------------
  // Row-major enumeration, as `for y, vy in enumerate(layout): for x, vx in enumerate(vy)`

  /** Strict row-major order: an earlier row, or the same row and an earlier column. */
  predicate RowMajorBefore(a: Tile, b: Tile) {
    a.y < b.y || (a.y == b.y && a.x < b.x)
  }

  /** The cells of row `y`, left to right. */
  function RowTiles(g: Layout, y: nat): (r: seq<Tile>)
    requires y < |g|
    ensures |r| == |g[y]|
    ensures forall i :: 0 <= i < |r| ==> r[i] == Tile(g[y][i], i, y)
  {
    seq(|g[y]|, i requires 0 <= i < |g[y]| => Tile(g[y][i], i, y))
  }

  /** The cells of rows `0 .. m-1`, in scan order. */
  function RowsPrefix(g: Layout, m: nat): seq<Tile>
    requires m <= |g|
    decreases m
  {
    if m == 0 then [] else RowsPrefix(g, m - 1) + RowTiles(g, m - 1)
  }

  /** Every cell of the grid, in the order the source's nested loops visit them. */
  function Cells(g: Layout): seq<Tile> {
    RowsPrefix(g, |g|)
  }

  lemma {:induction false} RowsPrefixMembership(g: Layout, m: nat, t: Tile)
    requires m <= |g|
    ensures t in RowsPrefix(g, m) <==> t.y < m && IsCellOf(g, t)
    decreases m
  {
    if m > 0 {
      RowsPrefixMembership(g, m - 1, t);
      var row := RowTiles(g, m - 1);
      if t.y == m - 1 && IsCellOf(g, t) {
        assert row[t.x] == t;
      }
    }
  }

  lemma {:induction false} RowsPrefixOrdered(g: Layout, m: nat)
    requires m <= |g|
    ensures Ordered(RowsPrefix(g, m), RowMajorBefore)
    decreases m
  {
    if m > 0 {
      var a := RowsPrefix(g, m - 1);
      var b := RowTiles(g, m - 1);
      RowsPrefixOrdered(g, m - 1);
      forall s, t | s in a && t in b
        ensures RowMajorBefore(s, t)
      {
        RowsPrefixMembership(g, m - 1, s);
      }
      OrderedAppend(a, b, RowMajorBefore);
    }
  }

  /** The scan visits exactly the cells of the grid, each carrying its value. */
  lemma CellsMembership(g: Layout, t: Tile)
    ensures t in Cells(g) <==> IsCellOf(g, t)
  {
    RowsPrefixMembership(g, |g|, t);
  }

  /** The scan visits cells in strictly increasing row-major order. */
  lemma CellsOrdered(g: Layout)
    ensures Ordered(Cells(g), RowMajorBefore)
  {
    RowsPrefixOrdered(g, |g|);
  }

  // ---------------------------------------------------------------------
  // Grow-and-write, shared by the editor's brush and erase tools

  /** `g2` is `g` after writing `v` at storage cell (`col`, `row`), growing the
      grid first: the row count becomes at least `row + 1`, the addressed row
      at least `col + 1` long, rows added on the way are empty, padding reads
      as 0, and every other cell reads as before. */
  ghost predicate GrownAndWritten(g: Layout, col: nat, row: nat, v: int, g2: Layout) {
    && |g2| == Max(|g|, row + 1)
    && |g2[row]| == Max(RowLen(g, row), col + 1)
    && g2[row][col] == v
    && (forall y :: 0 <= y < |g2| && y != row ==> |g2[y]| == RowLen(g, y))
    && (forall x: int, y: int :: (x != col || y != row) ==> Get(g2, x, y) == Get(g, x, y))
  }

  /** The body of `brush_tool`/`erase_tool` after the grid coordinates are
      known: `gx`, `gy` are the 1-based column and row. Rows are appended
      until `gy` rows exist, the addressed row is padded with 0 until it has
      `gx` cells, then the cell is written. There is no guard against
      `gx < 1` or `gy < 1`: Python then indexes from the end of the list,
      or raises IndexError when that is out of range too. */
  function WriteCell(g: Layout, gx: int, gy: int, v: int): (r: Result<Layout>)
    ensures 1 <= gx && 1 <= gy ==> r.Ok? && GrownAndWritten(g, gx - 1, gy - 1, v, r.value)
    ensures r.Ok? ==> |r.value| == Max(|g|, gy)
  {
    var g1 := if gy > |g| then g + seq(gy - |g|, _ => []) else g;
    match PyIndex(gy - 1, |g1|)
    case None => Err(IndexError)
    case Some(ry) =>
      var row := g1[ry];
      var row1 := if gx > |row| then row + seq(gx - |row|, _ => 0) else row;
      match PyIndex(gx - 1, |row1|)
      case None => Err(IndexError)
      case Some(cx) => Ok(g1[ry := row1[cx := v]])
  }

  /** Writing the same value at the same cell twice is writing it once. */
  lemma WriteCellIdempotent(g: Layout, gx: int, gy: int, v: int)
    requires WriteCell(g, gx, gy, v).Ok?
    ensures WriteCell(WriteCell(g, gx, gy, v).value, gx, gy, v) == WriteCell(g, gx, gy, v)
  {
    var g2 := WriteCell(g, gx, gy, v).value;
    var g1 := if gy > |g| then g + seq(gy - |g|, _ => []) else g;
    var ry := PyIndex(gy - 1, |g1|).value;
    var row := g1[ry];
    var row1 := if gx > |row| then row + seq(gx - |row|, _ => 0) else row;
    var cx := PyIndex(gx - 1, |row1|).value;
    assert g2 == g1[ry := row1[cx := v]];
    // the second call finds the grid and the row already long enough
    assert |g2| == |g1| && |g2[ry]| == |row1|;
    assert PyIndex(gy - 1, |g2|) == Some(ry);
    assert PyIndex(gx - 1, |g2[ry]|) == Some(cx);
    assert g2[ry][cx := v] == g2[ry];
    assert !(gy > |g2|) && !(gx > |g2[ry]|);
    assert g2[ry := g2[ry][cx := v]] == g2;
  }
}

=== FILE: world.dfy ===
/** The `World` record of a loaded game: name, tileset and objset names and
    a dictionary of levels keyed by their 1-based number written as a
    string, plus the cached level count. */
module Worlds {
  import opened Builtins
  import opened TileGrid

  /** An RGB background colour `(r, g, b)`. */
  datatype Color = Color(r: int, g: int, b: int)

  /** The value stored under one level key: `{"background-color": …, "layout": …}`. */
  datatype LevelData = LevelData(background: Color, layout: Layout)

  /** A dictionary of levels in insertion order (the order Python and the
      JSON text keep). */
  type LevelDict = seq<(string, LevelData)>

  /** No key occurs twice, as in every Python dictionary. */
  predicate DistinctKeys(d: LevelDict) {
    forall i, j :: 0 <= i < j < |d| ==> d[i].0 != d[j].0
  }

  /** The parsed shape of a world file:
      `{"name": …, "tileset": …, "objset": …, "levels": {…}}`. */
  datatype WorldData = WorldData(name: string, tileset: string, objset: string, levels: LevelDict)

  datatype World = World(name: string, tileset: string, objset: string, levels: LevelDict, length: int)

  /** `d[key]`: the value of the first entry with that key, if any. */
  function Lookup(d: LevelDict, key: string): (r: Option<LevelData>)
    ensures r.Some? ==> (key, r.value) in d
    ensures r.None? <==> forall i :: 0 <= i < |d| ==> d[i].0 != key
    decreases |d|
  {
    if d == [] then None
    else if d[0].0 == key then Some(d[0].1)
    else Lookup(d[1..], key)
  }

  /** `World.__init__`: the level count is taken from the dictionary. */
  function NewWorld(name: string, tileset: string, objset: string, levels: LevelDict): (w: World)
    requires DistinctKeys(levels)
    ensures w.length == |w.levels| && w.levels == levels
    ensures w.name == name && w.tileset == tileset && w.objset == objset
  {
    World(name, tileset, objset, levels, |levels|)
  }

  /** `World.get_level`: no level (None) past the count, otherwise the entry
      under `str(id)`, whose absence is a KeyError. */
  function GetLevel(w: World, id: int): (r: Result<Option<LevelData>>)
    requires DistinctKeys(w.levels)
    ensures r == Ok(None) <==> id > w.length
    ensures r.Ok? && r.value.Some? ==> (Str(id), r.value.value) in w.levels
    ensures r.Err? <==> id <= w.length && forall i :: 0 <= i < |w.levels| ==> w.levels[i].0 != Str(id)
    ensures r.Err? ==> r.error == KeyError(Str(id))
  {
    if id > w.length then Ok(None)
    else match Lookup(w.levels, Str(id))
      case None => Err(KeyError(Str(id)))
      case Some(level) => Ok(Some(level))
  }

  /** The dictionary a list of levels is saved as: level `i` (0-based) under
      key `str(i + 1)`. */
  function NumberedLevels(levels: seq<LevelData>): (d: LevelDict)
    ensures |d| == |levels|
    ensures forall i :: 0 <= i < |d| ==> d[i] == (Str(i + 1), levels[i])
    ensures DistinctKeys(d)
  {
    NumberKeysDistinct(|levels|);
    seq(|levels|, i requires 0 <= i < |levels| => (LevelKey(i), levels[i]))
  }

  /** The key of the level at 0-based position `i`. */
  function LevelKey(i: int): string {
    Str(i + 1)
  }

  /** The keys `str(1)`, …, `str(n)` are pairwise different. */
  lemma NumberKeysDistinct(n: nat)
    ensures forall i, j :: 0 <= i < j < n ==> LevelKey(i) != LevelKey(j)
  {
    forall i, j | 0 <= i < j < n
      ensures LevelKey(i) != LevelKey(j)
    {
      StrInjective(i + 1, j + 1);
    }
  }

  lemma {:induction false} LookupFirst(d: LevelDict, key: string, k: nat)
    requires k < |d| && d[k].0 == key
    requires forall i :: 0 <= i < k ==> d[i].0 != key
    ensures Lookup(d, key) == Some(d[k].1)
    decreases k
  {
    if k > 0 {
      LookupFirst(d[1..], key, k - 1);
    }
  }

  /** Looking up level `id` in a world built from numbered levels finds
      level `id`, for every id from 1 to the count; larger ids are "no
      such level" and ids below 1 raise KeyError. */
  lemma NumberedLevelLookup(name: string, tileset: string, objset: string, levels: seq<LevelData>, id: int)
    ensures var w := NewWorld(name, tileset, objset, NumberedLevels(levels));
      && (id > |levels| ==> GetLevel(w, id) == Ok(None))
      && (1 <= id <= |levels| ==> GetLevel(w, id) == Ok(Some(levels[id - 1])))
      && (id < 1 ==> GetLevel(w, id) == Err(KeyError(Str(id))))
  {
    var d := NumberedLevels(levels);
    forall i | 0 <= i < |d|
      ensures d[i].0 == Str(id) <==> i == id - 1
    {
      StrInjective(i + 1, id);
    }
    if 1 <= id <= |levels| {
      LookupFirst(d, Str(id), id - 1);
    }
  }
}
